=== FILE: README.md ===
# InsureAI fraud dashboard — a Dafny model of its deterministic core

InsureAI scores insurance claims for fraud. A Flask server (`app.py`) runs a
trained classifier and turns the probability into a 0–100 score. It then
maps the score to a decision tier (approve, review, flag) and explains the
claim with a fixed table of rule-based risk factors. It also keeps
in-memory session statistics. A browser page (`main.js`, `ui.js`,
`guide.js`) reads the claim form with per-field fallbacks and posts it. It
then plays a loading sequence and shows the reply on the dashboard: score
ring, verdict card, confidence bars, factor list, activity log, history
table and metric counters. A seven-step guide explains the system.

The model treats the classifier's score as an input. It covers everything
around the score:

- `util.dfy` (module `Util`): an option type, truncation toward zero
  (Python `int()` of a float, and `parseInt` of a number's text while that
  text is plain decimal), counting,
  and decimal printing.
- `server.dfy` (module `Server`):
  - the tiers;
  - the rule table, with a table-driven reference `Explain` that the
    imperative `RiskFactors` is proved equal to;
  - `safe_encode`;
  - the `stats` dictionary as the class `Stats`;
  - `predict` after the model call.
- `ui.dfy` (module `Ui`):
  - the pure helpers: score colour, confidence split, bar lookup, ring
    offset, tick sequence, history row;
  - the page as the class `Dashboard`, whose methods are the update
    functions of `ui.js`.
- `analysis.dfy` (module `Analysis`): `readFormData`, the `runAnalysis`
  flow (the server's reply is an input) and `populateSelect`.
- `guide.dfy` (module `Guide`): the panel table, `renderPanel`, and
  `showPanel` over the side navigation (the class `GuideNav`).
- `consistency.dfy` (module `Consistency`): how the parts agree.
  - The guide's score bands, the server tiers, the ring colours and the
    verdict cards cut the score at the same places.
  - The form's request reaches the rule table unchanged.
  - The server's factors get the bar of their own weight on the page.

Where the prose and the code disagree, the model follows the code. The
confidence split at a score of 100 is (0, 15, 85): the high share is
`Math.round(Math.min(88, 100 * 0.85))`, that is 85, not 88
(`ConfidenceExamples`).

The guide's weight table (guide.js:63-70) also differs from what the
server sends:

- A repeat claimant is HIGH, not MED.
- A high claim is MEDIUM up to $150,000, not HIGH.
- Theft counts only when unwitnessed, and as MEDIUM, not LOW.

## Model

| member | source | states |
|---|---|---|
| Util.TruncToInt | app.py:158 | truncation toward zero: for x ≥ 0 the result is the largest integer not above x, for x < 0 the smallest not below it |
| Util.CountAtMostAt | ui.js:17-23 | if a value can stand only at one position, it occurs once or never |
| Util.NatToString | guide.js:120 | the decimal text of a number is non-empty, all digits, and a single digit below 10 |
| Server.Decide | app.py:108-113 | a score gets the approve tier iff it is at most 30, review iff 31..70, flag iff at least 71 |
| Server.DecideMonotone | app.py:108-113 | a higher score never gets a milder tier |
| Server.RuleAt | app.py:128-145 | the rule tried at each position of the table has that rank |
| Server.RankInjective | app.py:128-145 | no two rules share a position |
| Server.EmitStep | app.py:128-145 | adding one rule's contribution keeps the factor list correct for all rules up to it |
| Server.ExplainCorrect | app.py:128-145 | the factors of the first k rules are in table order, each with its rule's weight, and present exactly for the rules that fire |
| Server.PolicyAgeExclusive | app.py:128-131 | the two policy-age rules never both fire |
| Server.ExplainLength | app.py:128-145 | each rule adds at most one factor, and the two policy-age rules together at most one |
| Server.ExplanationCorrect | app.py:116-145 | the full explanation: in table order with no rule twice; a factor iff its rule fires; each with its weight and never LOW; at most 8 factors; none for the default claim |
| Server.RiskFactors | app.py:116-145 | the if/elif append sequence yields exactly the table-driven explanation |
| Server.IndexOf | app.py:44-48 | the first position of a class, or none exactly when the class is unknown |
| Server.SafeEncode | app.py:44-48 | a known category gets its own position in the encoder's class list; an unknown one gets the default |
| Server.Stats.constructor | app.py:37-40 | a new session has all counters zero, no recent claims, and is valid |
| Server.Stats.RecordClaim | app.py:150-164 | total +1; exactly the score's tier counter +1; the saved amount grows by the truncated amount on fraud only; the new record is first and the old ones shift down, capped at 20; the tier counters still sum to the total |
| Server.Percent | app.py:192 | a share of a positive whole is between 0 and 100 percent: 0 for none, 100 for all |
| Server.Stats.Report | app.py:185-195 | the report carries the session's counters, saved amount and recent claims as they stand; the fraud rate is fraudulent/total·100 for a non-empty session and 0 for an empty one (the `or 1` guard), always between 0 and 100, and 100 when every claim was fraud |
| Server.Predict | app.py:104-177 | the reply carries the score's tier strings, the full explanation (a factor iff its rule fires) and the city defaulting to "Unknown"; the stats count the claim in its tier, add the truncated amount to the saved total on fraud only, put the claim's record first and shift the others down, capped at 20, and stay valid |
| Server.DefaultRequestHasNoFactors | app.py:117-126 | a request with none of the rule fields is read with the handler's defaults and gets no factor |
| Ui.ScoreColor | ui.js:210-214 | green iff score ≤ 30, amber iff 31..70, red iff ≥ 71 |
| Ui.RowColorIsScoreColor | ui.js:171 | the history row's inline colour rule agrees with `getScoreColor` |
| Ui.ScoreColorMonotone | ui.js:210-214 | a higher score never gets a milder colour |
| Ui.JsRound | ui.js:99-100 | `Math.round` is within one half of its argument, halves rounding up |
| Ui.ConfidenceSplit | ui.js:98-101 | low and medium shares are never negative, the high share is capped at 88, and the shares sum to 100 unless low and high already exceed it |
| Ui.ConfidenceOuterShares | ui.js:99-100 | from score 4 to 100 the rounded low and high shares never exceed 100 together |
| Ui.ConfidenceSumsTo100 | ui.js:98-101 | for every score from 0 to 100 the three shares sum to exactly 100 |
| Ui.ConfidenceExamples | ui.js:98-101 | scores 0, 25 and 100 split as (100,0,0), (71,8,21) and (0,15,85) |
| Ui.BarFor | ui.js:121-141 | HIGH, MEDIUM and LOW map to 85% red, 60% amber and 35% green; any other weight falls back to 60% amber |
| Ui.BarWidthsOrdered | ui.js:122 | heavier weights draw longer bars, and every bar is one of the three widths |
| Ui.RenderFactors | ui.js:118-147 | the placeholder shows iff there are no factors; otherwise one item per factor, in order, with its label, weight text, position and the bar of its weight |
| Ui.DashOffset | ui.js:49-51 | the ring offset stays within the circumference for scores 0..100: full at 0, empty at 100 |
| Ui.DashOffsetDecreasing | ui.js:51 | a higher score fills more of the ring |
| Ui.CountUp | ui.js:54-60 | the counter ticks 2, 4, 6, … never past the score, ends on the score, and takes max(1, ⌊(score+1)/2⌋) ticks |
| Ui.VerdictOfKey | ui.js:191-192 | exactly the three verdict keys find a counter, and the one found has that key |
| Ui.VerdictKeyRoundTrip | ui.js:191-192 | each verdict's key leads back to it |
| Ui.TypeName | ui.js:178 | a known incident type shows its display name, any other shows as itself |
| Ui.MakeRow | ui.js:166-184 | the row shows "—" for an empty city, the score's colour, the verdict's pill, the incident type's display name, and the claim's id, score, amount, vehicles and witnesses |
| Ui.MarkFor | ui.js:20-22 | a progress step is done iff it is before the current step and active iff it is the current one |
| Ui.Dashboard.constructor | ui.js:6 | a fresh page: nothing marked, empty log and history, counters from the markup, claim counter 1000 |
| Ui.Dashboard.SetProgress | ui.js:16-24 | each step gets the mark for its position, exactly one step is active when the step is 1..5 and none otherwise, and the call is recorded |
| Ui.Dashboard.MarkLoader | ui.js:35-36 | one loading step gains its `active` or `done` class, keeping the other class; every other step is unchanged; the mark is logged |
| Ui.Dashboard.ShowLoading | ui.js:27-43 | the strip moves through 2, 2, 3, 4, 5, 5; every mark on a loading step is made by MarkLoader, in the order activate 1, then finish the previous and activate the next up to step 4; at the end all loading marks are cleared, the overlay is hidden and the strip rests on step 5 |
| Ui.Dashboard.AnimateScoreRing | ui.js:46-61 | the ring gets its offset and colour, and the counter ends showing the score without ever passing it |
| Ui.Dashboard.SetVerdict | ui.js:64-95 | the badge class and the card's headline and layer caption are the verdict's |
| Ui.Dashboard.SetConfidenceBars | ui.js:98-115 | the bars show the confidence split, and for scores 0..100 they sum to 100 |
| Ui.Dashboard.SetRiskFactors | ui.js:118-154 | the badge counts the factors, and the panel shows the placeholder iff there are none |
| Ui.Dashboard.AddLog | ui.js:157-163 | the new entry goes on top of the log |
| Ui.Dashboard.AddHistoryRow | ui.js:166-187 | the placeholder is removed and the new row goes on top |
| Ui.Dashboard.UpdateMetrics | ui.js:190-207 | only a known verdict's counter rises by one; the total always rises and the header copies it; on fraud the saved total becomes the truncated old total plus the amount |
| Analysis.IntOr | main.js:9-38 | parseInt with a fallback: the parsed number unless parsing failed or gave zero |
| Analysis.RealOr | main.js:11-33 | parseFloat with a fallback: the parsed number unless parsing failed or gave zero |
| Analysis.ReadFormData | main.js:7-40 | every numeric field with its fallback (age 35, deductible 500, premium 1200, hour 12, one vehicle, zero for the rest), the vehicle age counted back from 2016 from a year defaulting to 2008, "reading" for a missing hobbies field, and every choice field as typed |
| Analysis.ZeroReadAsDefault | main.js:24-25 | a typed hour 0 is sent as 12 and zero vehicles as one |
| Analysis.VehicleAgeDefault | main.js:35 | without a year the vehicle is 8 years old; a year after 2016 gives a negative age |
| Analysis.VerdictOf | main.js:69 | the verdict is approve iff score ≤ 30, review iff 31..70, fraud iff ≥ 71 |
| Analysis.ShowPanels | main.js:67-76 | after a good reply, the ring has the score's offset, colour and number; the badge has the verdict's class, headline and layer caption; the confidence and factor panels show their renderings |
| Analysis.RecordResult | main.js:78-97 | one log entry and one history row go on top; the verdict's counter and the total rise by one and the header copies the total; a fraud verdict adds the amount to the truncated saved total, other verdicts leave it |
| Analysis.ShowReply | main.js:66-96 | a good reply raises the claim counter, shows ring, verdict card, confidence and factors for the score, and logs, records and counts the claim with the score's verdict, including the saved amount on fraud |
| Analysis.ReplyOutcome | main.js:53-101 | a failed request ends as failed, an error text as a server error carrying it, any other reply as shown with the score's verdict |
| Analysis.HandleReply | main.js:53-101 | the outcome is the reply's; a failed request or server error leaves the dashboard unchanged; a good reply raises the claim counter, shows every panel for the score, logs and records the claim, raises the verdict's counter and the total, and adds the amount to the saved total on fraud |
| Analysis.RunAnalysis | main.js:43-102 | a claim with no amount is rejected and nothing changes; otherwise the loading sequence plays and the reply decides the outcome; log and history change only when the result is shown |
| Analysis.Select.constructor | main.js:152-164 | a drop-down holds the given options and selection |
| Analysis.PopulateSelect | main.js:152-164 | a missing element is left alone; otherwise the options become the values in order, and the previous selection is kept if still offered, else it falls to the first value or "" |
| Guide.PanelChain | guide.js:6-103 | exactly the keys 1..7 have a panel; Previous is absent only on panel 1 and Next only on panel 7; every other link goes one step, and Next has a caption iff it exists |
| Guide.RenderPanel | guide.js:106-127 | nothing for a key without a panel; otherwise a style attribute iff the panel has a style, Previous disabled iff there is no previous panel, Back to Top iff there is no next one |
| Guide.RenderedNavigation | guide.js:106-127 | on panel n, Previous is disabled iff n = 1 and otherwise leads to n−1; Next is Back to Top iff n = 7 and otherwise leads to n+1 under its caption; the label reads "Step n of 7" |
| Guide.WalkNext | guide.js:113-114 | following Next buttons never leaves the panels 1..7 |
| Guide.WalkNextReachesAll | guide.js:113-114 | pressing Next k times from panel n reaches panel min(n+k, 7), so every panel is reached from the first |
| Guide.NavFor | guide.js:136-143 | an item is active iff it is the shown step and done iff it comes before it, never both; its badge is a tick iff done, and its own number otherwise |
| Guide.GuideNav.constructor | guide.js:130-132 | a navigation of the given size with nothing marked |
| Guide.GuideNav.ShowPanel | guide.js:130-146 | a key without a panel changes nothing; otherwise the panel is rendered and every item gets the state for its step and the shown one, independent of its previous state, so repeating the call changes nothing |
| Guide.ExactlyOneActive | guide.js:136-140 | after showing panel n, exactly the item of step n is active when there is one, and the done items are exactly the earlier ones |
| Consistency.TierOfVerdict | main.js:69 | each verdict card announces the tier of the same severity |
| Consistency.TiersAgree | guide.js:80-82 | on 0..100 each score is in the guide band of its tier; the ring colour and the verdict card always match the server's tier |
| Consistency.RequestOf | main.js:54-58 | the rule table reads exactly the form's values for all ten of its fields, and the city as sent; no server default applies |
| Consistency.MidnightSentAsNoon | main.js:24 | an incident typed in at hour 0 reaches the rule table as hour 12 and is not called late-night, though hour 0 itself would be |
| Consistency.HighFraudScenario | guide.js:100 | the guide's high-fraud test claim, typed into the form and sent, is explained by exactly very new policy, injury mismatch and no witnesses (high) and no police report (medium) |
| Consistency.ToClient | ui.js:134-144 | the page reads a factor's label and weight name as the server wrote them |
| Consistency.ToClientAll | ui.js:130-131 | the factor list keeps its length and order on the way to the page |
| Consistency.ServerFactorsOnThePage | ui.js:118-147 | every factor the server sends is drawn with its own weight's bar (red 85% for high, amber 60% for medium, never green), and the placeholder shows iff no rule fires |

## Left out

- The classifier is not modelled: its training and loading, the feature row, `predict_proba`, and the rounding of the probability to a score. The score is an input.
- Flask's request parsing is not modelled, nor `int()`/`float()` raising on malformed values, nor the exception handler's 500 reply. The model's request fields are typed values, possibly absent.
- The text parsing of `parseInt`/`parseFloat` is not modelled. A form field arrives already parsed, as a number or as NaN.
- Python floats and JavaScript numbers are modelled as exact reals, and integers as unbounded. Rounding to a double after each operation is not modelled. For the confidence split (ui.js:99-100), the exact products round to the same shares as in doubles for every score from 0 to 100, so there it makes no difference.
- The random claim id, the request latency and the clock behind log and history timestamps are left out. The id is a parameter; the other two are not modelled.
- The HTML markup is left out: the log message markup, the factor descriptions, the verdict card's icon and description text, and the guide's panel prose. A log entry is modelled as the claim id, verdict and score.
- The timers and animation delays are left out. The counter's ticks are modelled as the sequence they show, and the bars as their final widths.
- The network is left out: `fetch` and `resp.json()` are the `Reply` input.
- Ui.Dashboard.UpdateMetrics: the read-back of the saved total, `parseInt` of the stored text, is modelled as truncation. That matches only while the total prints in plain decimal. JavaScript prints a nonzero total below 1e-6, or one of 1e21 or more, in exponent notation, and `parseInt` then keeps only the leading digits (a stored 5e-7 reads back as 5). The sum `prev + amount` is also exact in the model, while the page rounds it to a double before storing it. So amounts of 1, then 0.9999999999999999, then 1 leave the page at 3 (the second sum rounds to 2) but the model at 2.
- Ui.Dashboard.UpdateMetrics: the counters are kept as numbers. Reading them back from page text with commas removed is not modelled, nor `toLocaleString`, nor session storage persisting across reloads.
- Ui.Dashboard.SetProgress: every progress step element is assumed present. The source skips a missing element.
- Lookups of keys such as `__proto__` in the JavaScript tables are not modelled. The model treats those tables as plain maps.
- Server.Stats: requests are modelled as handled one at a time. The development server can handle them on several threads, and the `+=` updates and the insert-then-slice of `recent_claims` are not atomic, so interleaved requests could lose updates; Valid() is not claimed under concurrency.
- Server.Stats.Report: the fraud rate is exact. The one-decimal rounding of the reply is not modelled.
- Guide.GuideNav.ShowPanel: every number badge element is assumed present, and the scroll into view is not modelled.
- `initGuide` (attaching the click handlers and showing panel 1), the theme toggle, and the metadata handler are not modelled, except for `populateSelect`, which is.
- Analysis.RunAnalysis: presses are modelled one at a time, each running to completion. The page does not stop a second press while a request is in flight, so overlapping runs could show and record replies in arrival order, with the panels showing the last reply and one claim's ring counter overwriting the other's number.
- Analysis.RunAnalysis: the `alert` texts are not modelled. A reply without `fraud_score` is not modelled; the score is always present.
- Analysis.RunAnalysis: its own contract states the outcome, the loading traces, and the log and total. The full state after a reply (panels, history, verdict counters, saved amount) is stated on HandleReply, which RunAnalysis calls after the loading sequence.
- The `/api/metadata` route and `load_or_train` are not modelled: they read files and the model.

=== FILE: analysis.dfy ===
/** The page's entry point (main.js): reading the claim form with its
    fallbacks, the analysis flow from the button press to the updated
    dashboard, and the rebuilding of a drop-down from a list of values.
    The server's reply is an input, standing for the network request. */
module Analysis {
  import opened Util
  import opened Ui

  // ------------------------------------------------------------ form input

  /** What `parseInt` or `parseFloat` made of a field's text. */
  datatype Parsed<T> = NaN | Num(value: T)

  /** `parseInt(text) || d`: the parsed number, unless parsing failed or gave
      zero, which are both falsy and so give the default. */
  function IntOr(p: Parsed<int>, d: int): (n: int)
    ensures p.Num? && p.value != 0 ==> n == p.value
    ensures p.NaN? || p.value == 0 ==> n == d
  {
    if p.Num? && p.value != 0 then p.value else d
  }

  /** `parseFloat(text) || d`, with the same two falsy cases. */
  function RealOr(p: Parsed<real>, d: real): (x: real)
    ensures p.Num? && p.value != 0.0 ==> x == p.value
    ensures p.NaN? || p.value == 0.0 ==> x == d
  {
    if p.Num? && p.value != 0.0 then p.value else d
  }

  /** The claim form's fields: numeric fields as parsed, choice fields as
      their text, and the hobbies field, which the page may lack. */
  datatype ClaimForm = ClaimForm(
    months: Parsed<int>, age: Parsed<int>, deductible: Parsed<real>, premium: Parsed<real>,
    umbrella: Parsed<real>, capitalGains: Parsed<real>, capitalLoss: Parsed<real>,
    sex: string, education: string, relationship: string, incidentType: string,
    severity: string, collision: string, state: string, city: string,
    hour: Parsed<int>, vehicles: Parsed<int>, injuries: Parsed<int>, witnesses: Parsed<int>,
    police: string, propertyDamage: string, amount: Parsed<real>, injuryClaim: Parsed<real>,
    propertyClaim: Parsed<real>, vehicleClaim: Parsed<real>, make: string, vehicleYear: Parsed<int>,
    occupation: string, hobbies: Option<string>, prior: Parsed<int>)

  /** The claim as `readFormData` hands it to the request. */
  datatype ClaimData = ClaimData(
    months: int, age: int, deductible: real, premium: real, umbrella: real,
    capitalGains: real, capitalLoss: real, sex: string, education: string,
    relationship: string, incidentType: string, severity: string, collision: string,
    state: string, city: string, hour: int, vehicles: int, injuries: int, witnesses: int,
    police: string, propertyDamage: string, amount: real, injuryClaim: real,
    propertyClaim: real, vehicleClaim: real, make: string, vehicleAge: int,
    occupation: string, hobbies: string, prior: int)

  const ModelYear := 2016
  const DefaultVehicleYear := 2008

  /** `readFormData`: each numeric field with its fallback (age 35, deductible
      500, premium 1200, hour 12, one vehicle, zero otherwise), the vehicle's
      age counted back from 2016 from a model year that defaults to 2008, and
      "reading" for a missing hobbies field. */
  function ReadFormData(f: ClaimForm): (d: ClaimData)
    ensures d.age == IntOr(f.age, 35) && d.hour == IntOr(f.hour, 12)
    ensures d.vehicles == IntOr(f.vehicles, 1)
    ensures d.deductible == RealOr(f.deductible, 500.0) && d.premium == RealOr(f.premium, 1200.0)
    ensures d.months == IntOr(f.months, 0) && d.injuries == IntOr(f.injuries, 0)
    ensures d.witnesses == IntOr(f.witnesses, 0) && d.prior == IntOr(f.prior, 0)
    ensures d.amount == RealOr(f.amount, 0.0)
    ensures d.vehicleAge == ModelYear - IntOr(f.vehicleYear, DefaultVehicleYear)
    ensures d.hobbies == f.hobbies.GetOr("reading")
    ensures d.incidentType == f.incidentType && d.severity == f.severity
    ensures d.police == f.police && d.city == f.city
    ensures d.umbrella == RealOr(f.umbrella, 0.0) && d.capitalGains == RealOr(f.capitalGains, 0.0)
    ensures d.capitalLoss == RealOr(f.capitalLoss, 0.0) && d.injuryClaim == RealOr(f.injuryClaim, 0.0)
    ensures d.propertyClaim == RealOr(f.propertyClaim, 0.0) && d.vehicleClaim == RealOr(f.vehicleClaim, 0.0)
    ensures d.sex == f.sex && d.education == f.education && d.relationship == f.relationship
    ensures d.collision == f.collision && d.state == f.state && d.propertyDamage == f.propertyDamage
    ensures d.make == f.make && d.occupation == f.occupation
  {
    ClaimData(
      IntOr(f.months, 0), IntOr(f.age, 35), RealOr(f.deductible, 500.0), RealOr(f.premium, 1200.0),
      RealOr(f.umbrella, 0.0), RealOr(f.capitalGains, 0.0), RealOr(f.capitalLoss, 0.0),
      f.sex, f.education, f.relationship, f.incidentType, f.severity, f.collision, f.state, f.city,
      IntOr(f.hour, 12), IntOr(f.vehicles, 1), IntOr(f.injuries, 0), IntOr(f.witnesses, 0),
      f.police, f.propertyDamage, RealOr(f.amount, 0.0), RealOr(f.injuryClaim, 0.0),
      RealOr(f.propertyClaim, 0.0), RealOr(f.vehicleClaim, 0.0), f.make,
      ModelYear - IntOr(f.vehicleYear, DefaultVehicleYear),
      f.occupation, f.hobbies.GetOr("reading"), IntOr(f.prior, 0))
  }

  /** A genuine zero is replaced like a failed parse: an incident at hour 0
      is sent as hour 12, and a claim with no vehicle as one with one. */
  lemma ZeroReadAsDefault(f: ClaimForm)
    requires f.hour == Num(0) && f.vehicles == Num(0)
    ensures ReadFormData(f).hour == 12 && ReadFormData(f).vehicles == 1
  {
  }

  /** Without a model year the vehicle is 8 years old; the age is not
      clipped, so a year after 2016 gives a negative age. */
  lemma VehicleAgeDefault(f: ClaimForm)
    ensures f.vehicleYear.NaN? || f.vehicleYear == Num(0) ==> ReadFormData(f).vehicleAge == 8
    ensures f.vehicleYear.Num? && f.vehicleYear.value > ModelYear ==> ReadFormData(f).vehicleAge < 0
  {
  }

  // --------------------------------------------------------- analysis flow

  /** What the page gets back for its request: nothing usable (the request
      or the reading of its body failed), or a body whose `error` text is
      empty when the server set none. */
  datatype Reply =
    | Failed
    | Received(error: string, claimId: string, score: int, city: string,
               factors: Option<seq<ClientFactor>>)

  /** How a press of the Analyse button ends. */
  datatype Outcome = Rejected | RequestFailed | ServerError(message: string) | Shown(verdict: Verdict)

  /** The verdict key of a score: the same 30/70 cut as the score colour. */
  function VerdictOf(score: int): (v: Verdict)
    ensures v == Approve <==> score <= 30
    ensures v == ReviewVerdict <==> 31 <= score <= 70
    ensures v == Fraud <==> 71 <= score
  {
    if score <= 30 then Approve else if score <= 70 then ReviewVerdict else Fraud
  }

  /** The panel updates of `runAnalysis` after a good reply: the score ring
      in the score's colour, the verdict card, the confidence bars and the
      risk factors. */
  method ShowPanels(ui: Dashboard, score: int, factors: seq<ClientFactor>) returns (verdict: Verdict)
    modifies ui`ringOffset, ui`ringColor, ui`ringNumber, ui`verdictClass, ui`verdictHeadline
    modifies ui`verdictLayer, ui`confidence, ui`factorBadge, ui`factorPanel
    ensures verdict == VerdictOf(score)
    ensures ui.ringOffset == DashOffset(score) && ui.ringColor == ScoreColor(score) && ui.ringNumber == score
    ensures ui.verdictClass == "verdict " + verdict.Key()
    ensures ui.verdictHeadline == verdict.Headline() && ui.verdictLayer == verdict.Layer()
    ensures ui.confidence == ConfidenceSplit(score)
    ensures ui.factorBadge == |factors| && ui.factorPanel == RenderFactors(factors)
  {
    verdict := VerdictOf(score);
    var color := ScoreColor(score);
    var _ := ui.AnimateScoreRing(score, color);
    ui.SetVerdict(verdict);
    ui.SetConfidenceBars(score);
    ui.SetRiskFactors(factors);
  }

  /** The record-keeping of `runAnalysis` after a good reply: one log entry,
      one history row, and the metric counters. */
  method RecordResult(ui: Dashboard, d: ClaimData, claimId: string, score: int, city: string, verdict: Verdict)
    modifies ui`log, ui`history, ui`historyPlaceholder, ui`approveCount, ui`reviewCount
    modifies ui`fraudCount, ui`totalCount, ui`headerClaims, ui`saved
    ensures ui.log == [ClaimLogged(claimId, verdict, score)] + old(ui.log)
    ensures ui.history == [MakeRow(score, RowInput(claimId, city, d.incidentType, d.amount, d.vehicles, d.witnesses), verdict)]
      + old(ui.history)
    ensures ui.approveCount == old(ui.approveCount) + (if verdict == Approve then 1 else 0)
    ensures ui.reviewCount == old(ui.reviewCount) + (if verdict == ReviewVerdict then 1 else 0)
    ensures ui.fraudCount == old(ui.fraudCount) + (if verdict == Fraud then 1 else 0)
    ensures ui.totalCount == old(ui.totalCount) + 1 && ui.headerClaims == ui.totalCount
    ensures verdict == Fraud ==> ui.saved == TruncToInt(old(ui.saved)) as real + d.amount
    ensures verdict != Fraud ==> ui.saved == old(ui.saved)
  {
    ui.AddLog(ClaimLogged(claimId, verdict, score));
    ui.AddHistoryRow(score, RowInput(claimId, city, d.incidentType, d.amount, d.vehicles, d.witnesses), verdict);
    ui.UpdateMetrics(verdict.Key(), d.amount);
  }

  /** How a reply ends a press whose claim had an amount. */
  function ReplyOutcome(reply: Reply): (o: Outcome)
    ensures o != Rejected
    ensures o == RequestFailed <==> reply.Failed?
    ensures o.ServerError? <==> reply.Received? && reply.error != ""
    ensures o.ServerError? ==> o.message == reply.error
    ensures o.Shown? ==> reply.Received? && reply.error == "" && o.verdict == VerdictOf(reply.score)
  {
    match reply
    case Failed => RequestFailed
    case Received(error, _, score, _, _) => if error != "" then ServerError(error) else Shown(VerdictOf(score))
  }

  /** The modifications a good reply makes: the claim counter goes up, the
      panels show the result, and the claim is logged, recorded and counted. */
  method ShowReply(ui: Dashboard, d: ClaimData, claimId: string, score: int, city: string,
                   factors: seq<ClientFactor>) returns (verdict: Verdict)
    modifies ui`claimCounter, ui`ringOffset, ui`ringColor, ui`ringNumber, ui`verdictClass
    modifies ui`verdictHeadline, ui`verdictLayer, ui`confidence, ui`factorBadge, ui`factorPanel
    modifies ui`log, ui`history, ui`historyPlaceholder, ui`approveCount, ui`reviewCount
    modifies ui`fraudCount, ui`totalCount, ui`headerClaims, ui`saved
    ensures verdict == VerdictOf(score)
    ensures ui.claimCounter == old(ui.claimCounter) + 1
    ensures ui.ringOffset == DashOffset(score) && ui.ringColor == ScoreColor(score) && ui.ringNumber == score
    ensures ui.verdictClass == "verdict " + verdict.Key()
    ensures ui.verdictHeadline == verdict.Headline() && ui.verdictLayer == verdict.Layer()
    ensures ui.confidence == ConfidenceSplit(score)
    ensures ui.factorBadge == |factors| && ui.factorPanel == RenderFactors(factors)
    ensures ui.log == [ClaimLogged(claimId, verdict, score)] + old(ui.log)
    ensures ui.history == [MakeRow(score, RowInput(claimId, city, d.incidentType, d.amount, d.vehicles, d.witnesses), verdict)]
      + old(ui.history)
    ensures ui.approveCount == old(ui.approveCount) + (if verdict == Approve then 1 else 0)
    ensures ui.reviewCount == old(ui.reviewCount) + (if verdict == ReviewVerdict then 1 else 0)
    ensures ui.fraudCount == old(ui.fraudCount) + (if verdict == Fraud then 1 else 0)
    ensures ui.totalCount == old(ui.totalCount) + 1 && ui.headerClaims == ui.totalCount
    ensures ui.saved == if verdict == Fraud then TruncToInt(old(ui.saved)) as real + d.amount else old(ui.saved)
  {
    ui.claimCounter := ui.claimCounter + 1;
    verdict := ShowPanels(ui, score, factors);
    RecordResult(ui, d, claimId, score, city, verdict);
  }

  /** The part of `runAnalysis` after the loading sequence: a failed request
      or a server error leaves the dashboard as it was; a good reply is shown
      as `ShowReply` states. */
  method HandleReply(ui: Dashboard, d: ClaimData, reply: Reply) returns (outcome: Outcome)
    modifies ui`claimCounter, ui`ringOffset, ui`ringColor, ui`ringNumber, ui`verdictClass
    modifies ui`verdictHeadline, ui`verdictLayer, ui`confidence, ui`factorBadge, ui`factorPanel
    modifies ui`log, ui`history, ui`historyPlaceholder, ui`approveCount, ui`reviewCount
    modifies ui`fraudCount, ui`totalCount, ui`headerClaims, ui`saved
    ensures outcome == ReplyOutcome(reply)
    ensures !outcome.Shown? ==> unchanged(ui)
    ensures outcome.Shown? ==> ui.claimCounter == old(ui.claimCounter) + 1
    ensures outcome.Shown? ==>
      ui.ringOffset == DashOffset(reply.score) && ui.ringColor == ScoreColor(reply.score)
      && ui.ringNumber == reply.score
    ensures outcome.Shown? ==>
      ui.verdictClass == "verdict " + outcome.verdict.Key()
      && ui.verdictHeadline == outcome.verdict.Headline() && ui.verdictLayer == outcome.verdict.Layer()
    ensures outcome.Shown? ==> ui.confidence == ConfidenceSplit(reply.score)
    ensures outcome.Shown? ==>
      ui.factorBadge == |reply.factors.GetOr([])| && ui.factorPanel == RenderFactors(reply.factors.GetOr([]))
    ensures outcome.Shown? ==> ui.log == [ClaimLogged(reply.claimId, outcome.verdict, reply.score)] + old(ui.log)
    ensures outcome.Shown? ==>
      ui.history == [MakeRow(reply.score, RowInput(reply.claimId, reply.city, d.incidentType, d.amount, d.vehicles, d.witnesses), outcome.verdict)]
        + old(ui.history)
    ensures outcome.Shown? ==>
      ui.approveCount == old(ui.approveCount) + (if outcome.verdict == Approve then 1 else 0)
      && ui.reviewCount == old(ui.reviewCount) + (if outcome.verdict == ReviewVerdict then 1 else 0)
      && ui.fraudCount == old(ui.fraudCount) + (if outcome.verdict == Fraud then 1 else 0)
    ensures outcome.Shown? ==> ui.totalCount == old(ui.totalCount) + 1 && ui.headerClaims == ui.totalCount
    ensures outcome.Shown? ==>
      ui.saved == if outcome.verdict == Fraud then TruncToInt(old(ui.saved)) as real + d.amount else old(ui.saved)
  {
    match reply
    case Failed =>
      outcome := RequestFailed;
    case Received(error, claimId, score, city, factors) =>
      if error != "" {
        return ServerError(error);
      }
      var verdict := ShowReply(ui, d, claimId, score, city, factors.GetOr([]));
      outcome := Shown(verdict);
  }

  /** `runAnalysis`: a claim without an amount is turned away before anything
      happens; otherwise the loading sequence plays and the reply decides the
      rest. */
  method RunAnalysis(ui: Dashboard, form: ClaimForm, reply: Reply) returns (outcome: Outcome)
    requires ui.Valid()
    modifies ui, ui.progress, ui.loader
    ensures outcome == if ReadFormData(form).amount == 0.0 then Rejected else ReplyOutcome(reply)
    ensures outcome.Rejected? ==> unchanged(ui) && unchanged(ui.progress) && unchanged(ui.loader)
    ensures !outcome.Rejected? ==> ui.progressTrace == old(ui.progressTrace) + LoadingTrace && !ui.overlayShown
    ensures !outcome.Shown? ==> ui.log == old(ui.log) && ui.history == old(ui.history)
    ensures outcome.Shown? ==>
      ui.log == [ClaimLogged(reply.claimId, outcome.verdict, reply.score)] + old(ui.log)
      && ui.totalCount == old(ui.totalCount) + 1
  {
    var d := ReadFormData(form);
    if d.amount == 0.0 {
      return Rejected;
    }
    ui.ShowLoading();
    outcome := HandleReply(ui, d, reply);
  }

  // --------------------------------------------------------------- selects

  /** A drop-down: its options in order and the selected value ("" when it
      has no options). */
  class Select {
    var options: seq<string>
    var value: string

    constructor (options: seq<string>, value: string)
      ensures this.options == options && this.value == value
    {
      this.options := options;
      this.value := value;
    }
  }

  /** `populateSelect`: on a page without the element nothing happens;
      otherwise the options become `values`, in order, and the previous
      selection is kept if it is still among them. Adding the first option to
      the emptied list selects it, so a lost selection falls to the first
      value, or to "" when there are none. */
  method PopulateSelect(sel: Select?, values: seq<string>)
    modifies sel
    ensures sel != null ==> sel.options == values
    ensures sel != null && old(sel.value) in values ==> sel.value == old(sel.value)
    ensures sel != null && old(sel.value) !in values ==> sel.value == (if values == [] then "" else values[0])
  {
    if sel == null {
      return;
    }
    var current := sel.value;
    sel.options, sel.value := [], "";
    for i := 0 to |values|
      invariant sel.options == values[..i]
      invariant sel.value == if i == 0 then "" else values[0]
    {
      sel.options := sel.options + [values[i]];
      if i == 0 {
        sel.value := values[0];
      }
    }
    assert values[..|values|] == values;
    if current in values {
      sel.value := current;
    }
  }
}

=== FILE: consistency.dfy ===
/** How the pieces fit together: the score bands the guide describes, the
    server's tiers, the ring colour and the verdict card all cut the score in
    the same places; the server's factors reach the factor panel with a
    known bar each; and what the form sends is what the rule table reads. */
module Consistency {
  import opened Util
  import Server
  import Ui
  import Analysis

  // ---------------------------------------------------------------- tiers

  /** The score bands the guide describes for approval, review and fraud,
      lowest first (the decision-layer text, the tier cards and the colour
      of the score ring). */
  const GuideBands: seq<(int, int)> := [(0, 30), (31, 70), (71, 100)]

  function ColorRank(c: Ui.Color): nat {
    match c
    case Green => 0
    case Amber => 1
    case Red => 2
  }

  function VerdictRank(v: Ui.Verdict): nat {
    match v
    case Approve => 0
    case ReviewVerdict => 1
    case Fraud => 2
  }

  /** The server tier announced by each verdict card. */
  function TierOfVerdict(v: Ui.Verdict): (t: Server.Tier)
    ensures t.Severity() == VerdictRank(v)
  {
    match v
    case Approve => Server.Approved
    case ReviewVerdict => Server.Review
    case Fraud => Server.Flagged
  }

  /** On every score the guide covers, the band the guide puts it in is the
      server's tier, the ring colour and the verdict card; outside that range
      the three still agree with each other. */
  lemma TiersAgree(score: int)
    ensures 0 <= score <= 100 ==> forall i :: 0 <= i < |GuideBands| ==>
      (GuideBands[i].0 <= score <= GuideBands[i].1 <==> Server.Decide(score).Severity() == i)
    ensures ColorRank(Ui.ScoreColor(score)) == Server.Decide(score).Severity()
    ensures TierOfVerdict(Analysis.VerdictOf(score)) == Server.Decide(score)
  {
  }

  // ----------------------------------------------------------- the request

  /** The request body the page posts: every field of the form data, under
      the key the server reads it by. */
  function RequestOf(d: Analysis.ClaimData): (raw: Server.RawClaim)
    ensures Server.ReadAttrs(raw) == Server.ClaimAttrs(d.months, d.amount, d.prior, d.witnesses, d.vehicles,
                                                       d.severity, d.police, d.incidentType, d.injuries, d.hour)
    ensures raw.city == Some(d.city)
  {
    Server.RawClaim(
      Some(d.months), Some(d.amount), Some(d.prior), Some(d.witnesses), Some(d.vehicles),
      Some(d.severity), Some(d.police), Some(d.incidentType), Some(d.injuries), Some(d.hour),
      Some(d.city))
  }

  /** The server's defaults never apply to a request from the page: the rule
      table reads exactly the form's values. In particular an incident typed
      in at hour 0, which the form sends as hour 12, is never reported as a
      late-night incident, although hour 0 itself would be. */
  lemma MidnightSentAsNoon(f: Analysis.ClaimForm)
    requires f.hour == Analysis.Num(0)
    ensures Server.ReadAttrs(RequestOf(Analysis.ReadFormData(f))).hour == 12
    ensures !Server.Fires(Server.ReadAttrs(RequestOf(Analysis.ReadFormData(f))), Server.LateNightIncident)
    ensures Server.Fires(Server.ReadAttrs(RequestOf(Analysis.ReadFormData(f))).(hour := 0), Server.LateNightIncident)
  {
  }

  /** The guide's high-fraud test claim typed into the form (two months,
      $45,000, trivial damage, two injuries, two vehicles, no witnesses, no
      police report), with fewer than three prior claims, a daytime hour and
      an incident other than theft: the explanation lists exactly the very
      new policy, the injury mismatch and the missing witnesses as high, and
      the missing police report as medium. The amount stays under the
      high-claim threshold, so that rule stays silent. */
  lemma HighFraudScenario(f: Analysis.ClaimForm)
    requires f.months == Analysis.Num(2) && f.amount == Analysis.Num(45000.0)
    requires f.severity == "Trivial Damage" && f.injuries == Analysis.Num(2)
    requires f.vehicles == Analysis.Num(2) && f.witnesses == Analysis.Num(0) && f.police == "NO"
    requires Analysis.IntOr(f.prior, 0) < 3 && 6 <= Analysis.IntOr(f.hour, 12) < 22
    requires f.incidentType != "Vehicle Theft"
    ensures Server.Explain(Server.ReadAttrs(RequestOf(Analysis.ReadFormData(f))), Server.RuleCount)
      == [Server.Factor(Server.VeryNewPolicy, Server.High),
          Server.Factor(Server.InjuryDamageMismatch, Server.High),
          Server.Factor(Server.NoWitnesses, Server.High),
          Server.Factor(Server.NoPoliceReport, Server.Medium)]
  {
    var c := Server.ReadAttrs(RequestOf(Analysis.ReadFormData(f)));
    assert Server.Explain(c, 1) == [Server.Factor(Server.VeryNewPolicy, Server.High)];
    assert Server.Explain(c, 2) == Server.Explain(c, 1);
    assert Server.Explain(c, 4) == Server.Explain(c, 2)
      + [Server.Factor(Server.InjuryDamageMismatch, Server.High), Server.Factor(Server.NoWitnesses, Server.High)];
    assert Server.Explain(c, 6) == Server.Explain(c, 4);
    assert Server.Explain(c, 7) == Server.Explain(c, 6) + [Server.Factor(Server.NoPoliceReport, Server.Medium)];
    assert Server.Explain(c, 9) == Server.Explain(c, 7);
  }

  // ---------------------------------------------------- factors on the page

  /** A server factor as the page reads it from the reply: its label and
      weight name (the description text is not modelled). */
  function ToClient(f: Server.Factor): (cf: Ui.ClientFactor)
    ensures cf.labelText == f.rule.Label() && cf.weight == f.weight.Name()
  {
    Ui.ClientFactor(f.rule.Label(), "", f.weight.Name())
  }

  function ToClientAll(fs: seq<Server.Factor>): (cfs: seq<Ui.ClientFactor>)
    ensures |cfs| == |fs| && forall i :: 0 <= i < |fs| ==> cfs[i] == ToClient(fs[i])
  {
    seq(|fs|, i requires 0 <= i < |fs| => ToClient(fs[i]))
  }

  /** Every factor the server explains a claim with gets the bar of its own
      weight on the page: a long red bar for high and a medium amber bar for
      medium; the short green bar is never drawn, and the placeholder shows
      exactly when no rule fires. */
  lemma ServerFactorsOnThePage(c: Server.ClaimAttrs)
    ensures Ui.RenderFactors(ToClientAll(Server.Explain(c, Server.RuleCount))).Placeholder?
      <==> forall r: Server.Rule :: !Server.Fires(c, r)
    ensures Ui.RenderFactors(ToClientAll(Server.Explain(c, Server.RuleCount))).Items? ==>
      forall i :: 0 <= i < |Server.Explain(c, Server.RuleCount)| ==>
        Ui.RenderFactors(ToClientAll(Server.Explain(c, Server.RuleCount))).items[i].bar
          == (if Server.Explain(c, Server.RuleCount)[i].weight == Server.High then Ui.Bar(85, Ui.Red)
              else Ui.Bar(60, Ui.Amber))
  {
    var fs := Server.Explain(c, Server.RuleCount);
    Server.ExplanationCorrect(c);
    if fs != [] {
      assert Server.Has(fs, fs[0].rule);
    } else {
      forall r: Server.Rule ensures !Server.Fires(c, r) {
        assert !Server.Has(fs, r);
      }
    }
  }
}

=== FILE: guide.dfy ===
/** The step-by-step guide (guide.js): seven panels linked by Previous and
    Next, the rendering of one panel's header and buttons, and the side
    navigation that marks the current step active and the earlier ones done.
    Panel prose and HTML bodies are content, not behaviour, and are not
    modelled. */
module Guide {
  import opened Util

  /** One entry of the panel table: the header style (empty for the default
      look), the title, and the neighbours with the caption of the Next
      button. */
  datatype Panel = Panel(topStyle: string, title: string, prev: Option<nat>, next: Option<nat>,
                         nextLabel: Option<string>)

  const PanelCount := 7

  /** The entries of `PANEL_CONTENT`, panel `n` at position `n - 1`. */
  const Panels: seq<Panel> := [
    Panel("", "Welcome to InsureAI", None, Some(2), Some("Policy Details")),
    Panel("background:linear-gradient(135deg,#0e7c52 0%,#0a5c3c 100%)",
          "Policy Information Fields", Some(1), Some(3), Some("Incident Details")),
    Panel("background:linear-gradient(135deg,#b45309 0%,#92400e 100%)",
          "Incident Details Fields", Some(2), Some(4), Some("3-Layer AI")),
    Panel("", "The 3-Layer AI System", Some(3), Some(5), Some("Fraud Signals")),
    Panel("background:linear-gradient(135deg,#b91c1c 0%,#991b1b 100%)",
          "Fraud Signals & Feature Weights", Some(4), Some(6), Some("Decision Tiers")),
    Panel("", "Decision Tiers Explained", Some(5), Some(7), Some("Reading Results")),
    Panel("background:linear-gradient(135deg,#1a1915 0%,#3d3a33 100%)",
          "Reading Your Results", Some(6), None, None)
  ]

  /** `PANEL_CONTENT[n]`: the panel with that number, or nothing for any other key. */
  function PanelContent(n: int): Option<Panel>
  {
    if 1 <= n <= |Panels| then Some(Panels[n - 1]) else None
  }

  /** The panels form one chain over 1..7: only the first has no Previous,
      only the last has no Next, and every other link goes one step. */
  lemma PanelChain(n: int)
    ensures PanelContent(n).Some? <==> 1 <= n <= PanelCount
    ensures 1 <= n <= PanelCount ==>
      PanelContent(n).value.prev == (if n == 1 then None else Some(n - 1))
      && PanelContent(n).value.next == (if n == PanelCount then None else Some(n + 1))
      && (PanelContent(n).value.nextLabel.Some? <==> PanelContent(n).value.next.Some?)
  {
  }

  /** The Previous button: greyed out, or leading to a panel. */
  datatype PrevButton = PrevDisabled | PrevTo(target: nat)

  /** The Next button: leading to a panel under the caption "Next: <label>",
      or scrolling back to the top of the page. */
  datatype NextButton = NextTo(target: nat, caption: string) | BackToTop

  /** What `renderPanel` puts on the page, without the markup around it. */
  datatype Rendered = Rendered(style: Option<string>, stepLabel: string, title: string,
                               prev: PrevButton, next: NextButton)

  /** `renderPanel(n)`: nothing when the table has no panel `n` (reading a
      field of the missing entry throws). Otherwise the header style is
      emitted only when the panel has one, the step label counts out of 7,
      and each button either links to the neighbour or takes its fallback. */
  function RenderPanel(n: int): (r: Option<Rendered>)
    ensures r.Some? <==> PanelContent(n).Some?
    ensures r.Some? ==>
      (r.value.style.Some? <==> PanelContent(n).value.topStyle != "")
      && (r.value.style.Some? ==> r.value.style.value == PanelContent(n).value.topStyle)
      && (r.value.prev == PrevDisabled <==> PanelContent(n).value.prev.None?)
      && (r.value.next == BackToTop <==> PanelContent(n).value.next.None?)
  {
    match PanelContent(n)
    case None => None
    case Some(p) =>
      var prev := if p.prev.Some? then PrevTo(p.prev.value) else PrevDisabled;
      var next := if p.next.Some? then NextTo(p.next.value, p.nextLabel.GetOr("null")) else BackToTop;
      var style := if p.topStyle != "" then Some(p.topStyle) else None;
      Some(Rendered(style, "Step " + NatToString(n) + " of 7", p.title, prev, next))
  }

  /** Following the buttons of a rendered panel: Previous is greyed out only
      on the first panel and Back to Top replaces Next only on the last; all
      other buttons go exactly one step, Next under its panel's caption. */
  lemma RenderedNavigation(n: int)
    requires 1 <= n <= PanelCount
    ensures RenderPanel(n).Some?
    ensures RenderPanel(n).value.prev == if n == 1 then PrevDisabled else PrevTo(n - 1)
    ensures RenderPanel(n).value.next ==
      if n == PanelCount then BackToTop else NextTo(n + 1, PanelContent(n).value.nextLabel.value)
    ensures RenderPanel(n).value.stepLabel == "Step " + [(('0' as int) + n) as char] + " of 7"
  {
    PanelChain(n);
  }

  /** The panel reached by pressing Next up to `k` times from panel `n`;
      Back to Top ends the walk. */
  function WalkNext(n: int, k: nat): (m: int)
    requires 1 <= n <= PanelCount
    ensures 1 <= m <= PanelCount
    decreases k
  {
    if k == 0 then n
    else
      RenderedNavigation(n);
      match RenderPanel(n).value.next
      case BackToTop => n
      case NextTo(t, _) => WalkNext(t, k - 1)
  }

  /** Pressing Next `k` times from panel `n` lands on panel `n + k`, or on
      the last panel once the chain runs out; from panel 1 every panel is
      reached. */
  lemma {:induction false} WalkNextReachesAll(n: int, k: nat)
    requires 1 <= n <= PanelCount
    ensures WalkNext(n, k) == Min(n + k, PanelCount)
    decreases k
  {
    RenderedNavigation(n);
    if k > 0 && n < PanelCount {
      WalkNextReachesAll(n + 1, k - 1);
    }
  }

  // ------------------------------------------------------------ navigation

  /** The state of one item of the side navigation: its two marks and the
      text of its number badge. */
  datatype NavItem = NavItem(active: bool, done: bool, badge: string)

  /** The state `showPanel(n)` leaves on the item numbered `num`. */
  function NavFor(num: nat, n: int): (item: NavItem)
    ensures item.active <==> num == n
    ensures item.done <==> num < n
    ensures !(item.active && item.done)
    ensures item.badge == "✓" <==> num < n
    ensures num >= n ==> item.badge == NatToString(num)
  {
    NavItem(num == n, num < n, if num < n then "✓" else NatToString(num))
  }

  /** The guide section of the page: the panel currently rendered and the
      items of the side navigation, in page order (item `k` is step `k + 1`). */
  class GuideNav {
    var shown: Option<Rendered>
    const items: array<NavItem>

    constructor (count: nat)
      ensures shown == None && items.Length == count
      ensures forall k :: 0 <= k < count ==> items[k] == NavItem(false, false, "")
    {
      shown := None;
      items := new NavItem[count](_ => NavItem(false, false, ""));
    }

    /** `showPanel(n)`: a number without a panel throws before anything
        changes. Otherwise the panel is rendered and every item is first
        cleared and then marked active if it is step `n` and done if it
        comes before it; its badge shows a tick for done steps and its own
        number for the others. The new marks depend on `n` alone, so
        showing the same panel twice leaves the page as showing it once. */
    method ShowPanel(n: int)
      modifies this`shown, items
      ensures RenderPanel(n).None? ==> shown == old(shown) && items[..] == old(items[..])
      ensures RenderPanel(n).Some? ==> shown == RenderPanel(n)
      ensures RenderPanel(n).Some? ==> forall k :: 0 <= k < items.Length ==> items[k] == NavFor(k + 1, n)
    {
      var r := RenderPanel(n);
      if r.None? {
        return;
      }
      shown := r;
      for idx := 0 to items.Length
        invariant shown == r
        invariant forall k :: 0 <= k < idx ==> items[k] == NavFor(k + 1, n)
      {
        var num := idx + 1;
        var item := items[idx].(active := false, done := false);
        if num == n {
          item := item.(active := true);
        }
        if num < n {
          item := item.(done := true);
        }
        item := item.(badge := if num < n then "✓" else NatToString(num));
        items[idx] := item;
      }
    }
  }

  /** After showing panel `n` on a navigation of `items` entries, exactly one
      item is active when `n` numbers one of them, and none otherwise; the
      done items are exactly those before it. */
  lemma ExactlyOneActive(items: seq<NavItem>, n: int)
    requires forall k :: 0 <= k < |items| ==> items[k] == NavFor(k + 1, n)
    ensures forall k, j :: 0 <= k < |items| && 0 <= j < |items| && items[k].active && items[j].active ==> k == j
    ensures 1 <= n <= |items| ==> items[n - 1].active
    ensures forall k :: 0 <= k < |items| && items[k].active ==> k == n - 1
    ensures forall k :: 0 <= k < |items| ==> (items[k].done <==> k < n - 1)
  {
  }
}

=== FILE: server.dfy ===
/** The server's deterministic layer around the fraud model (app.py): the
    decision tier of a score, the rule table that explains a claim by risk
    factors, the in-memory session statistics, the encoder lookup with its
    default, and the `predict` handler that strings them together. The
    model's probability is an input score here. */
module Server {
  import opened Util

  // ---------------------------------------------------------------- tiers

  /** The three decision tiers, with the strings the handler returns for each. */
  datatype Tier = Approved | Review | Flagged {
    function Decision(): string {
      match this
      case Approved => "APPROVED"
      case Review => "REVIEW"
      case Flagged => "FLAGGED"
    }
    function Label(): string {
      match this
      case Approved => "Auto Approved"
      case Review => "Manual Review"
      case Flagged => "Flagged as Fraud"
    }
    function Color(): string {
      match this
      case Approved => "green"
      case Review => "yellow"
      case Flagged => "red"
    }
    function Risk(): string {
      match this
      case Approved => "LOW"
      case Review => "MEDIUM"
      case Flagged => "HIGH"
    }
    /** Position in order of severity. */
    function Severity(): nat {
      match this
      case Approved => 0
      case Review => 1
      case Flagged => 2
    }
  }

  /** The decision tier of a fraud score. */
  function Decide(score: int): (t: Tier)
    ensures t == Approved <==> score <= 30
    ensures t == Review <==> 31 <= score <= 70
    ensures t == Flagged <==> 71 <= score
  {
    if score <= 30 then Approved
    else if score <= 70 then Review
    else Flagged
  }

  /** A higher score never gets a milder tier. */
  lemma DecideMonotone(s1: int, s2: int)
    requires s1 <= s2
    ensures Decide(s1).Severity() <= Decide(s2).Severity()
  {
  }

  // ---------------------------------------------------------- risk factors

  datatype Weight = High | Medium | Low {
    function Name(): string {
      match this
      case High => "HIGH"
      case Medium => "MEDIUM"
      case Low => "LOW"
    }
  }

  /** The rules of the explanation table, in the order they are tried. */
  datatype Rule =
    | VeryNewPolicy | NewPolicy | InjuryDamageMismatch | NoWitnesses | HighClaimAmount
    | RepeatClaimant | NoPoliceReport | UnwitnessedTheft | LateNightIncident
  {
    function Label(): string {
      match this
      case VeryNewPolicy => "Very New Policy"
      case NewPolicy => "New Policy (< 6 months)"
      case InjuryDamageMismatch => "Injury–Damage Mismatch"
      case NoWitnesses => "No Witnesses"
      case HighClaimAmount => "High Claim Amount"
      case RepeatClaimant => "Repeat Claimant"
      case NoPoliceReport => "No Police Report"
      case UnwitnessedTheft => "Unwitnessed Theft"
      case LateNightIncident => "Late Night Incident"
    }
    function Rank(): nat {
      match this
      case VeryNewPolicy => 0
      case NewPolicy => 1
      case InjuryDamageMismatch => 2
      case NoWitnesses => 3
      case HighClaimAmount => 4
      case RepeatClaimant => 5
      case NoPoliceReport => 6
      case UnwitnessedTheft => 7
      case LateNightIncident => 8
    }
  }

  /** One entry of the `risk_factors` list; its label is `rule.Label()`. */
  datatype Factor = Factor(rule: Rule, weight: Weight)

  /** The request fields the rule table and the statistics read. */
  datatype ClaimAttrs = ClaimAttrs(
    months: int, amount: real, prior: int, witnesses: int, vehicles: int,
    severity: string, police: string, incidentType: string, injuries: int, hour: int)

  /** The same fields as they arrive in the request body, each possibly absent. */
  datatype RawClaim = RawClaim(
    months: Option<int>, amount: Option<real>, prior: Option<int>, witnesses: Option<int>,
    vehicles: Option<int>, severity: Option<string>, police: Option<string>,
    incidentType: Option<string>, injuries: Option<int>, hour: Option<int>,
    city: Option<string>)

  /** The values the rule block uses for absent fields. */
  const DefaultAttrs := ClaimAttrs(24, 10000.0, 0, 1, 1, "Minor Damage", "YES", "", 0, 12)

  /** `data.get(key, default)` for every field the rule block reads. */
  function ReadAttrs(raw: RawClaim): ClaimAttrs {
    ClaimAttrs(
      raw.months.GetOr(DefaultAttrs.months), raw.amount.GetOr(DefaultAttrs.amount),
      raw.prior.GetOr(DefaultAttrs.prior), raw.witnesses.GetOr(DefaultAttrs.witnesses),
      raw.vehicles.GetOr(DefaultAttrs.vehicles), raw.severity.GetOr(DefaultAttrs.severity),
      raw.police.GetOr(DefaultAttrs.police), raw.incidentType.GetOr(DefaultAttrs.incidentType),
      raw.injuries.GetOr(DefaultAttrs.injuries), raw.hour.GetOr(DefaultAttrs.hour))
  }

  /** The condition under which each rule contributes a factor, stated rule by
      rule (the policy-age rules as the two disjoint ranges the `elif` chain picks). */
  predicate Fires(c: ClaimAttrs, r: Rule) {
    match r
    case VeryNewPolicy => c.months < 3
    case NewPolicy => 3 <= c.months < 6
    case InjuryDamageMismatch => c.severity == "Trivial Damage" && c.injuries > 0
    case NoWitnesses => c.vehicles >= 2 && c.witnesses == 0
    case HighClaimAmount => c.amount > 50000.0
    case RepeatClaimant => c.prior >= 3
    case NoPoliceReport => c.police != "YES"
    case UnwitnessedTheft => c.incidentType == "Vehicle Theft" && c.witnesses == 0
    case LateNightIncident => c.hour >= 22 || c.hour < 6
  }

  /** The weight a rule's factor carries for a claim. */
  function WeightOf(c: ClaimAttrs, r: Rule): Weight {
    match r
    case HighClaimAmount => if c.amount > 150000.0 then High else Medium
    case NoPoliceReport => Medium
    case UnwitnessedTheft => Medium
    case LateNightIncident => Medium
    case _ => High
  }

  predicate Has(fs: seq<Factor>, r: Rule) {
    exists i :: 0 <= i < |fs| && fs[i].rule == r
  }

  /** Factors appear in strictly increasing rule rank: table order, no rule twice. */
  predicate InRuleOrder(fs: seq<Factor>) {
    forall i, j :: 0 <= i < j < |fs| ==> fs[i].rule.Rank() < fs[j].rule.Rank()
  }

  /** What one rule contributes: its factor if it fires, nothing otherwise. */
  function Emit(c: ClaimAttrs, r: Rule): seq<Factor> {
    if Fires(c, r) then [Factor(r, WeightOf(c, r))] else []
  }

  const RuleCount := 9

  /** The rule table: the rule tried at each position, in the handler's order. */
  function RuleAt(k: nat): (r: Rule)
    requires k < RuleCount
    ensures r.Rank() == k
  {
    if k == 0 then VeryNewPolicy
    else if k == 1 then NewPolicy
    else if k == 2 then InjuryDamageMismatch
    else if k == 3 then NoWitnesses
    else if k == 4 then HighClaimAmount
    else if k == 5 then RepeatClaimant
    else if k == 6 then NoPoliceReport
    else if k == 7 then UnwitnessedTheft
    else LateNightIncident
  }

  /** Table-driven reference: the factors of the first `k` rules of the table, in order. */
  function Explain(c: ClaimAttrs, k: nat): seq<Factor>
    requires k <= RuleCount
  {
    if k == 0 then [] else Explain(c, k - 1) + Emit(c, RuleAt(k - 1))
  }

  /** The explanation is right for every rule of rank below `k`: it holds a
      factor exactly for those that fire, in table order, with their weights,
      and nothing from a later rule. */
  predicate CorrectBelow(c: ClaimAttrs, fs: seq<Factor>, k: nat) {
    InRuleOrder(fs)
    && (forall i :: 0 <= i < |fs| ==> fs[i].rule.Rank() < k && fs[i].weight == WeightOf(c, fs[i].rule))
    && (forall r: Rule :: r.Rank() < k ==> (Has(fs, r) <==> Fires(c, r)))
  }

  /** Two rules of the same rank are the same rule. */
  lemma RankInjective(a: Rule, b: Rule)
    requires a.Rank() == b.Rank()
    ensures a == b
  {
  }

  /** Appending what the rule of rank `k` emits extends correctness past it. */
  lemma EmitStep(c: ClaimAttrs, fs: seq<Factor>, k: nat, rule: Rule, next: seq<Factor>)
    requires CorrectBelow(c, fs, k) && rule.Rank() == k
    requires next == fs + Emit(c, rule)
    ensures CorrectBelow(c, next, k + 1)
  {
    forall r: Rule | r.Rank() < k + 1 ensures Has(next, r) <==> Fires(c, r) {
      if r.Rank() < k {
        if Has(next, r) {
          var i :| 0 <= i < |next| && next[i].rule == r;
          assert i < |fs|;
          assert fs[i] == next[i];
        }
        if Has(fs, r) {
          var i :| 0 <= i < |fs| && fs[i].rule == r;
          assert next[i] == fs[i];
        }
      } else {
        RankInjective(r, rule);
        if Fires(c, r) {
          assert next[|fs|].rule == r;
        }
      }
    }
  }

  /** The reference list of the first `k` rules is correct below `k`. */
  lemma {:induction false} ExplainCorrect(c: ClaimAttrs, k: nat)
    requires k <= RuleCount
    ensures CorrectBelow(c, Explain(c, k), k)
  {
    if k > 0 {
      ExplainCorrect(c, k - 1);
      EmitStep(c, Explain(c, k - 1), k - 1, RuleAt(k - 1), Explain(c, k));
    }
  }

  /** The two policy-age rules never both fire. */
  lemma PolicyAgeExclusive(c: ClaimAttrs)
    ensures |Explain(c, 2)| <= 1
  {
    assert Explain(c, 1) == Emit(c, VeryNewPolicy);
  }

  /** Each rule of the table adds at most one factor. */
  lemma {:induction false} ExplainLength(c: ClaimAttrs, k: nat)
    requires 2 <= k <= RuleCount
    ensures |Explain(c, k)| <= k - 1
  {
    if k == 2 {
      PolicyAgeExclusive(c);
    } else {
      ExplainLength(c, k - 1);
    }
  }

  /** What the explanation promises: one factor per rule that fires and none
      for a rule that does not, in table order, each with its rule's weight
      (never LOW), at most eight of them, and none for the form defaults. */
  lemma ExplanationCorrect(c: ClaimAttrs)
    ensures InRuleOrder(Explain(c, RuleCount))
    ensures forall r: Rule :: Has(Explain(c, RuleCount), r) <==> Fires(c, r)
    ensures forall i :: 0 <= i < |Explain(c, RuleCount)| ==>
      Explain(c, RuleCount)[i].weight == WeightOf(c, Explain(c, RuleCount)[i].rule)
      && Explain(c, RuleCount)[i].weight != Low
    ensures |Explain(c, RuleCount)| <= 8
    ensures c == DefaultAttrs ==> Explain(c, RuleCount) == []
  {
    var fs := Explain(c, RuleCount);
    ExplainCorrect(c, RuleCount);
    forall r: Rule ensures Has(fs, r) <==> Fires(c, r) {
      assert r.Rank() < RuleCount;
    }
    ExplainLength(c, RuleCount);
  }

  /** The rule-based explanation, built by successive appends as the handler
      does: after each rule it is the reference list of the rules tried so far,
      so at the end it is the whole reference list, whose properties
      `ExplanationCorrect` states. */
  method RiskFactors(c: ClaimAttrs) returns (fs: seq<Factor>)
    ensures fs == Explain(c, RuleCount)
  {
    fs := [];
    if c.months < 3 {
      fs := fs + [Factor(VeryNewPolicy, High)];
    } else if c.months < 6 {
      fs := fs + [Factor(NewPolicy, High)];
    }
    assert Explain(c, 1) == Emit(c, VeryNewPolicy);
    assert fs == Explain(c, 2);
    if c.severity == "Trivial Damage" && c.injuries > 0 {
      fs := fs + [Factor(InjuryDamageMismatch, High)];
    }
    assert fs == Explain(c, 3);
    if c.vehicles >= 2 && c.witnesses == 0 {
      fs := fs + [Factor(NoWitnesses, High)];
    }
    assert fs == Explain(c, 4);
    if c.amount > 50000.0 {
      fs := fs + [Factor(HighClaimAmount, if c.amount > 150000.0 then High else Medium)];
    }
    assert fs == Explain(c, 5);
    if c.prior >= 3 {
      fs := fs + [Factor(RepeatClaimant, High)];
    }
    assert fs == Explain(c, 6);
    if c.police != "YES" {
      fs := fs + [Factor(NoPoliceReport, Medium)];
    }
    assert fs == Explain(c, 7);
    if c.incidentType == "Vehicle Theft" && c.witnesses == 0 {
      fs := fs + [Factor(UnwitnessedTheft, Medium)];
    }
    assert fs == Explain(c, 8);
    if c.hour >= 22 || c.hour < 6 {
      fs := fs + [Factor(LateNightIncident, Medium)];
    }
  }

  // --------------------------------------------------------------- encoders

  /** Position of the first occurrence of `val` in `classes`. */
  function IndexOf(classes: seq<string>, val: string): (r: Option<nat>)
    ensures r.Some? ==> r.value < |classes| && classes[r.value] == val
    ensures r.Some? ==> forall j :: 0 <= j < r.value ==> classes[j] != val
    ensures r.None? <==> val !in classes
  {
    if classes == [] then None
    else if classes[0] == val then Some(0)
    else match IndexOf(classes[1..], val)
      case Some(k) => Some(k + 1)
      case None => None
  }

  /** `safe_encode`: the label encoder's code for a known category, the
      default for any category the encoder has not seen. The encoder is its
      list of known classes, and a category's code is its position there. */
  function SafeEncode(classes: seq<string>, val: string, default: int): (code: int)
    ensures val in classes ==> 0 <= code < |classes| && classes[code] == val
    ensures val !in classes ==> code == default
  {
    match IndexOf(classes, val)
    case Some(k) => k
    case None => default
  }

  // ---------------------------------------------------------- session stats

  /** One entry of `recent_claims`. */
  datatype ClaimRecord = ClaimRecord(id: string, city: string, amount: int, decision: Tier, score: int)

  /** The reply of `get_stats`; the fraud rate is the exact percentage (the
      one-decimal rounding is not modelled). */
  datatype StatsReport = StatsReport(
    totalClaims: nat, fraudulent: nat, approved: nat, manualReview: nat,
    fraudRate: real, amountSaved: int, recentClaims: seq<ClaimRecord>)

  const RecentLimit := 20

  /** `part / whole * 100` on exact reals. */
  function Percent(part: nat, whole: nat): (p: real)
    requires whole > 0
    ensures part <= whole ==> 0.0 <= p <= 100.0
    ensures part == whole ==> p == 100.0
    ensures part == 0 ==> p == 0.0
  {
    var q := part as real / whole as real;
    assert part <= whole ==> q <= 1.0;
    q * 100.0
  }

  /** The module-level `stats` dictionary. */
  class Stats {
    var totalClaims: nat
    var fraudulent: nat
    var approved: nat
    var manualReview: nat
    var totalAmountSaved: int
    var recentClaims: seq<ClaimRecord>

    /** Every claim is counted in exactly one tier; the recent list is capped,
        holds no more claims than were recorded, and each entry's decision is
        the tier of its score. */
    ghost predicate Valid()
      reads this
    {
      approved + manualReview + fraudulent == totalClaims
      && |recentClaims| <= RecentLimit
      && |recentClaims| <= totalClaims
      && forall i :: 0 <= i < |recentClaims| ==> recentClaims[i].decision == Decide(recentClaims[i].score)
    }

    constructor ()
      ensures Valid()
      ensures totalClaims == 0 && fraudulent == 0 && approved == 0 && manualReview == 0
      ensures totalAmountSaved == 0 && recentClaims == []
    {
      totalClaims, fraudulent, approved, manualReview := 0, 0, 0, 0;
      totalAmountSaved := 0;
      recentClaims := [];
    }

    /** The bookkeeping `predict` does after scoring a claim. */
    method RecordClaim(id: string, city: string, amount: real, score: int)
      requires Valid()
      modifies this
      ensures Valid()
      ensures totalClaims == old(totalClaims) + 1
      ensures approved == old(approved) + (if score <= 30 then 1 else 0)
      ensures manualReview == old(manualReview) + (if 31 <= score <= 70 then 1 else 0)
      ensures fraudulent == old(fraudulent) + (if score >= 71 then 1 else 0)
      ensures totalAmountSaved == old(totalAmountSaved) + (if score >= 71 then TruncToInt(amount) else 0)
      ensures |recentClaims| == Min(|old(recentClaims)| + 1, RecentLimit)
      ensures recentClaims[0] == ClaimRecord(id, city, TruncToInt(amount), Decide(score), score)
      ensures forall i :: 1 <= i < |recentClaims| ==> recentClaims[i] == old(recentClaims)[i - 1]
    {
      totalClaims := totalClaims + 1;
      var decision := Decide(score);
      if decision == Approved {
        approved := approved + 1;
      } else if decision == Review {
        manualReview := manualReview + 1;
      } else {
        fraudulent := fraudulent + 1;
        totalAmountSaved := totalAmountSaved + TruncToInt(amount);
      }
      var inserted := [ClaimRecord(id, city, TruncToInt(amount), decision, score)] + recentClaims;
      recentClaims := if |inserted| <= RecentLimit then inserted else inserted[..RecentLimit];
    }

    /** `get_stats`: the counters as they stand, and the fraud rate over
        `total_claims or 1`, so an empty session reports a rate of zero. */
    function Report(): (r: StatsReport)
      reads this
      requires Valid()
      ensures 0.0 <= r.fraudRate <= 100.0
      ensures totalClaims == 0 ==> r.fraudRate == 0.0
      ensures fraudulent == totalClaims > 0 ==> r.fraudRate == 100.0
      ensures r.approved + r.manualReview + r.fraudulent == r.totalClaims
      ensures r.totalClaims == totalClaims && r.fraudulent == fraudulent
      ensures r.approved == approved && r.manualReview == manualReview
      ensures r.amountSaved == totalAmountSaved && r.recentClaims == recentClaims
      ensures totalClaims > 0 ==> r.fraudRate == fraudulent as real / totalClaims as real * 100.0
    {
      var total := if totalClaims == 0 then 1 else totalClaims;
      StatsReport(totalClaims, fraudulent, approved, manualReview, Percent(fraudulent, total),
                  totalAmountSaved, recentClaims)
    }
  }

  // --------------------------------------------------------------- predict

  /** The fields of a successful `predict` reply (probability and latency
      are not modelled). */
  datatype Response = Response(
    claimId: string, fraudScore: int, decision: string, decisionLabel: string,
    decisionColor: string, riskLevel: string, riskFactors: seq<Factor>, city: string)

  /** `predict` after the model call: decide, explain, record. The claim id
      (random in the source) is a parameter. */
  method Predict(stats: Stats, raw: RawClaim, score: int, claimId: string) returns (resp: Response)
    requires stats.Valid()
    modifies stats
    ensures stats.Valid()
    ensures resp.fraudScore == score && resp.claimId == claimId
    ensures resp.decision == Decide(score).Decision() && resp.decisionLabel == Decide(score).Label()
    ensures resp.decisionColor == Decide(score).Color() && resp.riskLevel == Decide(score).Risk()
    ensures resp.riskFactors == Explain(ReadAttrs(raw), RuleCount)
    ensures forall r: Rule :: Has(resp.riskFactors, r) <==> Fires(ReadAttrs(raw), r)
    ensures resp.city == raw.city.GetOr("Unknown")
    ensures stats.totalClaims == old(stats.totalClaims) + 1
    ensures stats.approved == old(stats.approved) + (if score <= 30 then 1 else 0)
    ensures stats.manualReview == old(stats.manualReview) + (if 31 <= score <= 70 then 1 else 0)
    ensures stats.fraudulent == old(stats.fraudulent) + (if score >= 71 then 1 else 0)
    ensures stats.totalAmountSaved ==
      old(stats.totalAmountSaved) + (if score >= 71 then TruncToInt(ReadAttrs(raw).amount) else 0)
    ensures |stats.recentClaims| == Min(|old(stats.recentClaims)| + 1, RecentLimit)
    ensures stats.recentClaims[0] ==
      ClaimRecord(claimId, raw.city.GetOr("Unknown"), TruncToInt(ReadAttrs(raw).amount), Decide(score), score)
    ensures forall i :: 1 <= i < |stats.recentClaims| ==> stats.recentClaims[i] == old(stats.recentClaims)[i - 1]
  {
    var tier := Decide(score);
    var c := ReadAttrs(raw);
    var factors := RiskFactors(c);
    ExplanationCorrect(c);
    var city := raw.city.GetOr("Unknown");
    stats.RecordClaim(claimId, city, c.amount, score);
    resp := Response(claimId, score, tier.Decision(), tier.Label(), tier.Color(), tier.Risk(), factors, city);
  }

  /** A request that carries none of the rule fields is read with the
      handler's defaults and gets no risk factor. */
  lemma DefaultRequestHasNoFactors()
    ensures ReadAttrs(RawClaim(None, None, None, None, None, None, None, None, None, None, None)) == DefaultAttrs
    ensures Explain(DefaultAttrs, RuleCount) == []
  {
    ExplanationCorrect(DefaultAttrs);
  }
}

=== FILE: ui.dfy ===
/** The dashboard's client-side state transforms (ui.js): the colour of a
    score, the low/medium/high confidence split, the factor bars, the
    five-step progress strip and the scripted loading overlay, the score
    ring's counter, the verdict card, the activity log, the history table
    and the metric counters. The page is a `Dashboard` object whose fields
    are the parts of the page these functions rewrite; markup, CSS and
    timers are not modelled. */
module Ui {
  import opened Util

  // --------------------------------------------------------------- colours

  /** The three CSS colour variables the dashboard paints scores with. */
  datatype Color = Green | Amber | Red

  /** `getScoreColor`: green up to 30, amber up to 70, red above. */
  function ScoreColor(score: int): (col: Color)
    ensures col == Green <==> score <= 30
    ensures col == Amber <==> 31 <= score <= 70
    ensures col == Red <==> 71 <= score
  {
    if score <= 30 then Green
    else if score <= 70 then Amber
    else Red
  }

  /** The colour the history row gives its score, written as the row's own
      nested conditional. */
  function RowScoreColor(score: int): Color {
    if score <= 30 then Green else if score <= 70 then Amber else Red
  }

  /** The history table and the score ring colour scores the same way. */
  lemma RowColorIsScoreColor(score: int)
    ensures RowScoreColor(score) == ScoreColor(score)
  {
  }

  /** A higher score never gets a milder colour. */
  lemma ScoreColorMonotone(s1: int, s2: int)
    requires s1 <= s2
    ensures ScoreColor(s1) == Red ==> ScoreColor(s2) == Red
    ensures ScoreColor(s2) == Green ==> ScoreColor(s1) == Green
  {
  }

  // ------------------------------------------------------------ confidence

  /** `Math.round` on an exact number: the nearest integer, halves upward. */
  function JsRound(x: real): (n: int)
    ensures n as real - 0.5 <= x < n as real + 0.5
  {
    (x + 0.5).Floor
  }

  function RealMin(a: real, b: real): real { if a < b then a else b }

  datatype Confidence = Confidence(low: int, med: int, high: int)

  /** `setConfidenceBars`: the low share falls with the score, the high share
      rises with it (capped at 88), and the medium share takes up the rest. */
  function ConfidenceSplit(score: int): (c: Confidence)
    ensures c.low >= 0 && c.med >= 0 && c.high <= 88
    ensures c.low + c.high <= 100 ==> c.low + c.med + c.high == 100
    ensures c.low + c.high > 100 ==> c.med == 0
    ensures score >= 0 ==> c.high >= 0
  {
    var low := Max(0, JsRound(100.0 - score as real * 1.15));
    var high := JsRound(RealMin(88.0, score as real * 0.85));
    Confidence(low, Max(0, 100 - low - high), high)
  }

  /** From a score of 4 on, rounding both outer shares up costs at most one
      point, which the 0.3-per-point gap between the slopes absorbs. */
  lemma ConfidenceOuterShares(score: int)
    requires 4 <= score <= 100
    ensures var c := ConfidenceSplit(score); c.low + c.high <= 100
  {
    var s := score as real;
    assert RealMin(88.0, s * 0.85) == s * 0.85;
    var low := JsRound(100.0 - s * 1.15);
    var high := JsRound(s * 0.85);
    assert (high as real) <= s * 0.85 + 0.5;
    assert (low as real) <= 100.0 - s * 1.15 + 0.5;
    assert Max(0, low) + high <= 100;
  }

  /** For every score the server can send, the three shares add up to 100;
      below a score of 4 the rounded shares are exact. */
  lemma ConfidenceSumsTo100(score: int)
    requires 0 <= score <= 100
    ensures var c := ConfidenceSplit(score); c.low + c.med + c.high == 100
  {
    if score >= 4 {
      ConfidenceOuterShares(score);
    }
  }

  /** The split at both ends of the scale and at a middle score. */
  lemma ConfidenceExamples()
    ensures ConfidenceSplit(0) == Confidence(100, 0, 0)
    ensures ConfidenceSplit(25) == Confidence(71, 8, 21)
    ensures ConfidenceSplit(100) == Confidence(0, 15, 85)
  {
  }

  // ----------------------------------------------------------- factor bars

  /** How a factor's weight is drawn: the bar's target width in percent and
      its colour. */
  datatype Bar = Bar(width: int, color: Color)

  /** The weight-keyed colour and width tables, with the amber colour and the
      60% width an unknown weight falls back to. */
  function BarFor(weight: string): (b: Bar)
    ensures weight == "HIGH" ==> b == Bar(85, Red)
    ensures weight == "MEDIUM" ==> b == Bar(60, Amber)
    ensures weight == "LOW" ==> b == Bar(35, Green)
    ensures weight != "HIGH" && weight != "MEDIUM" && weight != "LOW" ==> b == Bar(60, Amber)
  {
    if weight == "HIGH" then Bar(85, Red)
    else if weight == "MEDIUM" then Bar(60, Amber)
    else if weight == "LOW" then Bar(35, Green)
    else Bar(60, Amber)
  }

  /** A heavier weight draws a longer bar, and every bar is one of the three
      widths. */
  lemma BarWidthsOrdered(weight: string)
    ensures BarFor("LOW").width < BarFor("MEDIUM").width < BarFor("HIGH").width
    ensures BarFor(weight).width in {35, 60, 85}
  {
  }

  /** A risk factor as the page receives it. */
  datatype ClientFactor = ClientFactor(labelText: string, desc: string, weight: string)

  /** One rendered factor: its label and description, its bar, the weight
      text beside the bar, and its position (which staggers the animation). */
  datatype FactorItem = FactorItem(labelText: string, desc: string, bar: Bar, weightText: string, position: nat)

  /** What the factor panel shows: the placeholder, or one item per factor. */
  datatype FactorPanel = Placeholder | Items(items: seq<FactorItem>)

  function RenderFactors(factors: seq<ClientFactor>): (p: FactorPanel)
    ensures p.Placeholder? <==> factors == []
    ensures p.Items? ==> |p.items| == |factors|
    ensures p.Items? ==> forall i :: 0 <= i < |factors| ==>
      p.items[i].labelText == factors[i].labelText && p.items[i].bar == BarFor(factors[i].weight)
      && p.items[i].weightText == factors[i].weight && p.items[i].position == i
  {
    if factors == [] then Placeholder
    else Items(seq(|factors|, i requires 0 <= i < |factors| =>
      FactorItem(factors[i].labelText, factors[i].desc, BarFor(factors[i].weight), factors[i].weight, i)))
  }

  // ------------------------------------------------------------ score ring

  const Circumference := 440.0

  /** The dash offset that fills the ring in proportion to the score. */
  function DashOffset(score: int): (off: real)
    ensures 0 <= score <= 100 ==> 0.0 <= off <= Circumference
    ensures score == 0 ==> off == Circumference
    ensures score == 100 ==> off == 0.0
  {
    Circumference - (score as real / 100.0) * Circumference
  }

  /** A higher score fills more of the ring. */
  lemma DashOffsetDecreasing(s1: int, s2: int)
    requires s1 <= s2
    ensures DashOffset(s2) <= DashOffset(s1)
  {
  }

  /** The numbers the ring's counter shows, tick by tick: it starts from 0,
      climbs by 2 per tick, is clamped at the score, and the timer stops on
      the first tick that reaches the score. */
  method CountUp(score: int) returns (shown: seq<int>)
    ensures |shown| >= 1 && shown[|shown| - 1] == score
    ensures forall k :: 0 <= k < |shown| ==> shown[k] <= score
    ensures forall k :: 0 <= k < |shown| - 1 ==> shown[k] == 2 * (k + 1)
    ensures |shown| == Max(1, (score + 1) / 2)
  {
    var c := Min(0 + 2, score);
    shown := [c];
    while c < score
      invariant |shown| >= 1 && c == shown[|shown| - 1]
      invariant c == Min(2 * |shown|, score)
      invariant |shown| == 1 || 2 * (|shown| - 1) < score
      invariant forall k :: 0 <= k < |shown| ==> shown[k] == Min(2 * (k + 1), score)
      decreases score - c
    {
      c := Min(c + 2, score);
      shown := shown + [c];
    }
  }

  // ------------------------------------------------------------- verdicts

  /** The verdict keys the page uses: "approve", "review", "fraud". */
  datatype Verdict = Approve | ReviewVerdict | Fraud {
    function Key(): string {
      match this
      case Approve => "approve"
      case ReviewVerdict => "review"
      case Fraud => "fraud"
    }

    /** The verdict card: its headline and the decision-layer caption. */
    function Headline(): string {
      match this
      case Approve => "AUTO APPROVE"
      case ReviewVerdict => "MANUAL REVIEW"
      case Fraud => "FRAUD FLAGGED"
    }

    function Layer(): string {
      match this
      case Approve => "Layer 3 → Approve"
      case ReviewVerdict => "Layer 3 → Review"
      case Fraud => "Layer 3 → Fraud"
    }

    /** The history table's pill label. */
    function Pill(): string {
      match this
      case Approve => "APPROVE"
      case ReviewVerdict => "REVIEW"
      case Fraud => "FRAUD"
    }
  }

  /** The lookup `updateMetrics` does on a verdict key; any other key finds
      no counter. */
  function VerdictOfKey(key: string): (v: Option<Verdict>)
    ensures v.Some? ==> v.value.Key() == key
    ensures v.None? <==> key != "approve" && key != "review" && key != "fraud"
  {
    if key == "approve" then Some(Approve)
    else if key == "review" then Some(ReviewVerdict)
    else if key == "fraud" then Some(Fraud)
    else None
  }

  /** Each verdict's key leads back to it. */
  lemma VerdictKeyRoundTrip(v: Verdict)
    ensures VerdictOfKey(v.Key()) == Some(v)
  {
  }

  // ------------------------------------------------------------------- log

  /** An activity-log entry: a scored claim with its verdict, or any other
      message (its markup is not modelled). */
  datatype LogEntry = ClaimLogged(claimId: string, verdict: Verdict, score: int) | Message(text: string)

  // --------------------------------------------------------------- history

  /** The claim details a history row is built from. */
  datatype RowInput = RowInput(claimId: string, city: string, incidentType: string,
                               amount: real, vehicles: int, witnesses: int)

  datatype HistoryRow = HistoryRow(claimId: string, city: string, typeName: string, amount: real,
                                   vehicles: int, witnesses: int, score: int, scoreColor: Color, pill: string)

  /** Display names of the incident types; a type missing from the table is
      shown as it is. */
  const IncidentTypeNames: map<string, string> := map[
    "Single Vehicle Collision" := "Single Collision",
    "Multi-vehicle Collision" := "Multi-Vehicle",
    "Vehicle Theft" := "Theft",
    "Parked Car" := "Parked Car"]

  function TypeName(incidentType: string): (name: string)
    ensures incidentType in IncidentTypeNames ==> name == IncidentTypeNames[incidentType]
    ensures incidentType !in IncidentTypeNames ==> name == incidentType
  {
    if incidentType in IncidentTypeNames then IncidentTypeNames[incidentType] else incidentType
  }

  /** The row `addHistoryRow` builds: an empty city is shown as a dash. */
  function MakeRow(score: int, d: RowInput, verdict: Verdict): (row: HistoryRow)
    ensures row.city == (if d.city == "" then "—" else d.city)
    ensures row.scoreColor == ScoreColor(score) && row.pill == verdict.Pill()
    ensures row.claimId == d.claimId && row.score == score && row.amount == d.amount
    ensures row.typeName == TypeName(d.incidentType)
    ensures row.vehicles == d.vehicles && row.witnesses == d.witnesses
  {
    HistoryRow(d.claimId, if d.city == "" then "—" else d.city, TypeName(d.incidentType), d.amount,
               d.vehicles, d.witnesses, score, RowScoreColor(score), verdict.Pill())
  }

  // ------------------------------------------------------------- dashboard

  /** State of one step of the progress strip: `setProgress` clears both
      classes before it sets one, so a step is never both. */
  datatype StepMark = Idle | Active | Done

  /** State of one step of the loading overlay, whose two classes are set
      independently. */
  datatype LoaderMark = LoaderMark(active: bool, done: bool)

  /** What happens to the loading overlay's steps, in order. */
  datatype LoaderEvent = Activate(step: nat) | Finish(step: nat)

  const ProgressSteps := 5
  const LoaderSteps := 4

  /** The progress marks `setProgress(step)` leaves on step `i` (1-based). */
  function MarkFor(i: int, step: int): (m: StepMark)
    ensures m == Done <==> i < step
    ensures m == Active <==> i == step
  {
    if i < step then Done else if i == step then Active else Idle
  }

  /** The progress steps the loading loop sets in its first `n` rounds. */
  function LoopProgress(n: nat): seq<int> {
    if n == 0 then [] else LoopProgress(n - 1) + [n + 1]
  }

  /** The marks the loading loop puts on the overlay's steps in its first `n`
      rounds: each round finishes the previous step, then activates its own. */
  function LoopEvents(n: nat): seq<LoaderEvent> {
    if n == 0 then [] else LoopEvents(n - 1) + RoundEvents(n - 1)
  }

  function RoundEvents(i: nat): seq<LoaderEvent> {
    if i == 0 then [Activate(0)] else [Finish(i - 1), Activate(i)]
  }

  /** The progress steps `showLoading` sets, in order. */
  const LoadingTrace: seq<int> := [2, 2, 3, 4, 5, 5]

  /** The order in which `showLoading` marks the overlay's steps. */
  const LoadingEvents: seq<LoaderEvent> :=
    [Activate(0), Finish(0), Activate(1), Finish(1), Activate(2), Finish(2), Activate(3)]

  /** The dashboard page: the parts of it the update functions rewrite. */
  class Dashboard {
    /** The progress strip, steps 1..5 at positions 0..4. */
    const progress: array<StepMark>
    /** The loading overlay's four steps. */
    const loader: array<LoaderMark>
    var overlayShown: bool
    /** Every `setProgress` argument so far, oldest first. */
    ghost var progressTrace: seq<int>
    /** Every mark put on a loading step so far, oldest first. */
    ghost var loaderTrace: seq<LoaderEvent>

    var ringOffset: real
    var ringColor: Color
    var ringNumber: int
    var verdictClass: string
    var verdictHeadline: string
    var verdictLayer: string
    var confidence: Confidence
    var factorBadge: nat
    var factorPanel: FactorPanel

    /** Activity log and claim history, newest first. */
    var log: seq<LogEntry>
    var history: seq<HistoryRow>
    var historyPlaceholder: bool

    var approveCount: int
    var reviewCount: int
    var fraudCount: int
    var totalCount: int
    var headerClaims: int
    /** The "saved" amount kept in session storage. */
    var saved: real

    /** The running claim number, starting from 1000. */
    var claimCounter: int

    ghost predicate Valid()
      reads this
    {
      progress.Length == ProgressSteps && loader.Length == LoaderSteps
    }

    /** A freshly loaded page: nothing marked, no verdict, empty log and
        history, and the counters as the page's markup starts them. */
    constructor (approved: int, review: int, fraud: int, total: int)
      ensures Valid() && fresh(progress) && fresh(loader)
      ensures progress[..] == seq(ProgressSteps, _ => Idle)
      ensures loader[..] == seq(LoaderSteps, _ => LoaderMark(false, false))
      ensures !overlayShown && progressTrace == [] && loaderTrace == []
      ensures log == [] && history == [] && historyPlaceholder
      ensures approveCount == approved && reviewCount == review && fraudCount == fraud
      ensures totalCount == total && headerClaims == total
      ensures saved == 0.0 && claimCounter == 1000
    {
      progress := new StepMark[ProgressSteps](_ => Idle);
      loader := new LoaderMark[LoaderSteps](_ => LoaderMark(false, false));
      overlayShown := false;
      progressTrace, loaderTrace := [], [];
      ringOffset, ringColor, ringNumber := Circumference, Green, 0;
      verdictClass, verdictHeadline, verdictLayer := "", "", "";
      confidence := Confidence(0, 0, 0);
      factorBadge, factorPanel := 0, Placeholder;
      log, history, historyPlaceholder := [], [], true;
      approveCount, reviewCount, fraudCount, totalCount, headerClaims := approved, review, fraud, total, total;
      saved := 0.0;
      claimCounter := 1000;
    }

    /** `setProgress`: steps before `step` are done, `step` itself is active,
        later steps are neither; so at most one step is active. */
    method SetProgress(step: int)
      requires Valid()
      modifies progress, this`progressTrace
      ensures forall i :: 0 <= i < ProgressSteps ==> progress[i] == MarkFor(i + 1, step)
      ensures Count(progress[..], Active) == if 1 <= step <= ProgressSteps then 1 else 0
      ensures progressTrace == old(progressTrace) + [step]
    {
      for i := 1 to ProgressSteps + 1
        modifies progress
        invariant forall k :: 0 <= k < i - 1 ==> progress[k] == MarkFor(k + 1, step)
      {
        progress[i - 1] := MarkFor(i, step);
      }
      forall k | 0 <= k < ProgressSteps && progress[k] == Active ensures k == step - 1 {
        assert MarkFor(k + 1, step) == Active;
      }
      CountAtMostAt(progress[..], Active, step - 1);
      progressTrace := progressTrace + [step];
    }

    /** One `classList.add` on a loading step: `Activate` adds its `active`
        class and `Finish` its `done` class; the other class and the other
        steps keep theirs. Every mark is logged in `loaderTrace`. */
    method MarkLoader(ev: LoaderEvent)
      requires Valid() && ev.step < LoaderSteps
      modifies loader, this`loaderTrace
      ensures loader[ev.step] ==
        if ev.Activate? then old(loader[ev.step]).(active := true) else old(loader[ev.step]).(done := true)
      ensures forall k :: 0 <= k < LoaderSteps && k != ev.step ==> loader[k] == old(loader[k])
      ensures loaderTrace == old(loaderTrace) + [ev]
    {
      if ev.Activate? {
        loader[ev.step] := loader[ev.step].(active := true);
      } else {
        loader[ev.step] := loader[ev.step].(done := true);
      }
      loaderTrace := loaderTrace + [ev];
    }

    /** `showLoading`: show the overlay, then mark the four loading steps one
        after the other while the progress strip moves through 2, 3, 4, 5;
        finally clear the loading steps, hide the overlay and leave the strip
        on step 5. */
    method ShowLoading()
      requires Valid()
      modifies this`overlayShown, progress, loader, this`progressTrace, this`loaderTrace
      ensures !overlayShown
      ensures progressTrace == old(progressTrace) + LoadingTrace
      ensures loaderTrace == old(loaderTrace) + LoadingEvents
      ensures forall i :: 0 <= i < LoaderSteps ==> loader[i] == LoaderMark(false, false)
      ensures forall i :: 0 <= i < ProgressSteps ==> progress[i] == MarkFor(i + 1, 5)
    {
      overlayShown := true;
      SetProgress(2);
      for i := 0 to LoaderSteps
        invariant progressTrace == old(progressTrace) + [2] + LoopProgress(i)
        invariant loaderTrace == old(loaderTrace) + LoopEvents(i)
      {
        ghost var before := loaderTrace;
        if i > 0 {
          MarkLoader(Finish(i - 1));
        }
        MarkLoader(Activate(i));
        assert loaderTrace == before + RoundEvents(i);
        // Regrouping the appends lets each trace meet its invariant directly.
        assert old(loaderTrace) + (LoopEvents(i) + RoundEvents(i)) == old(loaderTrace) + LoopEvents(i) + RoundEvents(i);
        assert old(progressTrace) + [2] + (LoopProgress(i) + [i + 2]) == old(progressTrace) + [2] + LoopProgress(i) + [i + 2];
        SetProgress(i + 2);
      }
      assert LoopProgress(LoaderSteps) == [2, 3, 4, 5];
      assert LoopEvents(LoaderSteps) == LoadingEvents;
      for i := 0 to LoaderSteps
        modifies loader
        invariant forall k :: 0 <= k < i ==> loader[k] == LoaderMark(false, false)
      {
        loader[i] := LoaderMark(false, false);
      }
      overlayShown := false;
      SetProgress(5);
    }

    /** `animateScoreRing`: set the ring's fill and colour, then run the
        counter until it shows the score. */
    method AnimateScoreRing(score: int, color: Color) returns (ticks: seq<int>)
      modifies this`ringOffset, this`ringColor, this`ringNumber
      ensures ringOffset == DashOffset(score) && ringColor == color
      ensures ringNumber == score
      ensures |ticks| >= 1 && ticks[|ticks| - 1] == score
      ensures forall k :: 0 <= k < |ticks| ==> ticks[k] <= score
    {
      ringOffset := DashOffset(score);
      ringColor := color;
      ticks := CountUp(score);
      ringNumber := ticks[|ticks| - 1];
    }

    /** `setVerdict`: the badge takes the verdict's class and its card. */
    method SetVerdict(v: Verdict)
      modifies this`verdictClass, this`verdictHeadline, this`verdictLayer
      ensures verdictClass == "verdict " + v.Key()
      ensures verdictHeadline == v.Headline() && verdictLayer == v.Layer()
    {
      verdictClass := "verdict " + v.Key();
      verdictHeadline := v.Headline();
      verdictLayer := v.Layer();
    }

    /** `setConfidenceBars`. */
    method SetConfidenceBars(score: int)
      modifies this`confidence
      ensures confidence == ConfidenceSplit(score)
      ensures 0 <= score <= 100 ==> confidence.low + confidence.med + confidence.high == 100
    {
      confidence := ConfidenceSplit(score);
      if 0 <= score <= 100 {
        ConfidenceSumsTo100(score);
      }
    }

    /** `setRiskFactors`: the badge counts the factors, and the panel shows
        the placeholder exactly when there are none. */
    method SetRiskFactors(factors: seq<ClientFactor>)
      modifies this`factorBadge, this`factorPanel
      ensures factorBadge == |factors| && factorPanel == RenderFactors(factors)
      ensures factorPanel.Placeholder? <==> factors == []
    {
      factorBadge := |factors|;
      factorPanel := RenderFactors(factors);
    }

    /** `addLog`: the new entry goes on top. */
    method AddLog(entry: LogEntry)
      modifies this`log
      ensures log == [entry] + old(log)
    {
      log := [entry] + log;
    }

    /** `addHistoryRow`: the empty-table placeholder goes, and the new row goes
        on top. */
    method AddHistoryRow(score: int, d: RowInput, verdict: Verdict)
      modifies this`history, this`historyPlaceholder
      ensures !historyPlaceholder
      ensures history == [MakeRow(score, d, verdict)] + old(history)
    {
      historyPlaceholder := false;
      history := [MakeRow(score, d, verdict)] + history;
    }

    /** `updateMetrics`: the counter of a known verdict goes up by one, the
        total always does and the header copies it, and a fraud verdict adds
        the amount to the saved total. The saved total is read back from
        session storage with `parseInt`, which drops any fraction of it as
        long as the stored text is plain decimal. */
    method UpdateMetrics(verdictKey: string, amount: real)
      modifies this`approveCount, this`reviewCount, this`fraudCount, this`totalCount
      modifies this`headerClaims, this`saved
      ensures approveCount == old(approveCount) + (if verdictKey == "approve" then 1 else 0)
      ensures reviewCount == old(reviewCount) + (if verdictKey == "review" then 1 else 0)
      ensures fraudCount == old(fraudCount) + (if verdictKey == "fraud" then 1 else 0)
      ensures totalCount == old(totalCount) + 1 && headerClaims == totalCount
      ensures verdictKey == "fraud" ==> saved == TruncToInt(old(saved)) as real + amount
      ensures verdictKey != "fraud" ==> saved == old(saved)
    {
      var known := VerdictOfKey(verdictKey);
      if known.Some? {
        match known.value
        case Approve => approveCount := approveCount + 1;
        case ReviewVerdict => reviewCount := reviewCount + 1;
        case Fraud => fraudCount := fraudCount + 1;
      }
      totalCount := totalCount + 1;
      headerClaims := totalCount;
      if verdictKey == "fraud" {
        var prev := TruncToInt(saved);
        saved := prev as real + amount;
      }
    }
  }
}

=== FILE: util.dfy ===
/** Small helpers shared by the dashboard model: an optional value, the
    truncating integer conversion both Python's `int(x)` and JavaScript's
    `parseInt` apply to a decimal number, counting, and decimal printing. */
module Util {

  datatype Option<T> = None | Some(value: T) {
    function GetOr(default: T): T {
      match this
      case Some(v) => v
      case None => default
    }
  }

  /** Truncation toward zero of a number: Python's `int(x)` on a float, and
      JavaScript's `parseInt` applied to the text of a number while that
      text is plain decimal (not exponent notation). */
  function TruncToInt(x: real): (n: int)
    ensures 0.0 <= x ==> 0 <= n && n as real <= x < n as real + 1.0
    ensures x < 0.0 ==> n <= 0 && n as real - 1.0 < x <= n as real
  {
    if x >= 0.0 then x.Floor else -((-x).Floor)
  }

  function Min(a: int, b: int): int { if a < b then a else b }

  function Max(a: int, b: int): int { if a < b then b else a }

  /** Number of positions of `s` holding `x`. */
  function Count<T(==)>(s: seq<T>, x: T): nat
  {
    if s == [] then 0 else Count(s[..|s| - 1], x) + (if s[|s| - 1] == x then 1 else 0)
  }

  /** When `x` can stand only at position `j`, it occurs once if it is there and never otherwise. */
  lemma {:induction false} CountAtMostAt<T>(s: seq<T>, x: T, j: int)
    requires forall i :: 0 <= i < |s| && s[i] == x ==> i == j
    ensures Count(s, x) == if 0 <= j < |s| && s[j] == x then 1 else 0
  {
    if s != [] {
      var init := s[..|s| - 1];
      assert forall i :: 0 <= i < |init| && init[i] == x ==> i == j by {
        forall i | 0 <= i < |init| && init[i] == x ensures i == j {
          assert s[i] == init[i];
        }
      }
      CountAtMostAt(init, x, j);
      if 0 <= j < |init| {
        assert init[j] == s[j];
      }
    }
  }

  predicate IsDigit(c: char) { '0' <= c <= '9' }

  /** The decimal text of a natural number, as `String(n)` writes it. */
  function NatToString(n: nat): (s: string)
    ensures |s| >= 1
    ensures forall i :: 0 <= i < |s| ==> IsDigit(s[i])
    ensures n < 10 ==> s == [(('0' as int) + n) as char]
  {
    var d := [(('0' as int) + n % 10) as char];
    if n < 10 then d else NatToString(n / 10) + d
  }
}
